=== FILE: README.md ===
# GalaxyRumble game rules in Dafny

GalaxyRumble is a small top-down arcade shooter built on pygame. The player's
ship moves with the arrow keys and fires bullets with the space bar. Meteors
and three classes of enemy ships fall from above. Coins and medkits appear
on the screen. All of the game's logic lives in one `main()` loop in
`main_game.py`, interleaved with drawing.

This project pulls that logic out as a deterministic state machine over
integer rectangles and proves properties of it:

- `Geometry`: pygame's `Rect` and the two operations the game uses.
  `colliderect` is `Collides`; `clamp_ip` is `ClampIp`.
- `Scans`: the linear scans that every collision loop performs. These are
  counting, filtering out, and finding the first hit, for an entity list
  viewed through its hitboxes.
- `Entities`: the player, enemies, meteors, bullets, coins, medkits and the
  scrolling background, each with its constructor and its `tick`.
- `Contacts`: the player-contact rules of a frame. Medkits heal, meteors
  hurt, enemies end the game, and coins are banked three to a point.
- `Shooting`: bullet resolution against meteors and enemies.
- `Frame`: the game state and one iteration of the main loop (`Step`), plus
  runs of many frames (`Run`).

The game state is immutable. Each source loop that removes entities is a
recursive function over a snapshot of the list, in list order. The loops that
only tick every entity are sequence comprehensions. Python's `list.remove` on the object
being visited becomes order-preserving removal, because entities compare by
identity.

Modelling assumptions:

- `colliderect` follows pygame 2. A rectangle of zero width or height
  collides with nothing. Otherwise the rectangles must overlap on both axes,
  so rectangles that only share an edge do not collide.
  `CollidesIffSharedPixel` shows that this is exactly "the two rectangles
  share a pixel".
- `clamp_ip` follows pygame's per-axis branches. A rectangle at least as
  long as the bounds on an axis is centred on that axis. Otherwise it is
  pushed in from the side it sticks out of.
- Image sizes are natural-number parameters, fixed for a game (`Sprites`).
- Random spawn positions are parameters, restricted to the range `randint`
  draws from (`SpawnsInRange`). A frame builds each spawned entity with its
  class's constructor at that position (`Arrive`).
- The enemy class that `spawn_enemy` picks at random is a parameter.
- Whatever the spawn timers ask for in a frame arrives in `FrameInput`,
  together with the held arrow keys and the number of space-bar presses.
- A sprite group is an ordered sequence in insertion order.

Only bullets are removed when they leave the screen (`Bullet.tick`, lines
124-125 of `main_game.py`). Enemies, meteors and coins that leave the screen
stay in their lists.

## Model

| member | source | states |
|---|---|---|
| Geometry.CollidesIffSharedPixel | main_game.py:263 | Two hitboxes collide exactly when some pixel lies in both; rectangles that only touch along an edge, or that have zero size, never collide |
| Geometry.ClampAxis | main_game.py:108 | On one axis, an interval no longer than the bounds ends up inside them, is left in place if already inside, and lands at the allowed position nearest its start |
| Geometry.ClampIp | main_game.py:108 | Clamping keeps the rectangle's size, puts a rectangle that fits inside the bounds, and leaves a rectangle already inside unchanged |
| Geometry.ClampIsNearest | main_game.py:108 | No placement of the same rectangle inside the bounds is closer, on either axis, to where it started than the clamped one |
| Geometry.ClampIdempotent | main_game.py:108 | Clamping a clamped rectangle again changes nothing |
| Scans.FirstHit | main_game.py:309-314 | The scan that stops at the first overlap returns the index of an overlapping entity with none before it, or nothing exactly when no entity overlaps |
| Entities.NewPlayer | main_game.py:86-95 | The ship starts at (600, 600) with full health (3), its hitbox's top-left corner on that position and the sprite's size |
| Entities.PlayerTick | main_game.py:97-109 | After a tick the position equals the hitbox's top-left corner, size and health are unchanged, and a sprite that fits the 1280x720 window lies inside it |
| Entities.PlayerTickMovesThenClamps | main_game.py:97-109 | A tick moves the hitbox by 10 pixels per held key, signed by direction, and then clamps it into the window; if that target is inside the window the ship lands on it exactly |
| Entities.OppositeKeysCancel | main_game.py:98-105 | Holding up and down together gives the same result as holding neither, and so does holding left and right together |
| Entities.IdlePlayerStays | main_game.py:97-109 | With no key held, a ship already inside the window does not move |
| Entities.NewEnemy | main_game.py:70-82 | Tank, Fast and Classic enemies start with (speed, health) (2,3), (10,1) and (5,2); every enemy sits at its spawn point, with x in 0..1280 and above the window, with positive speed, health at most 3, and its hitbox on its position |
| Entities.EnemyTick | main_game.py:53-55 | An enemy falls by its own speed, keeps its column, size, speed and health, and its hitbox follows it |
| Entities.EnemyFallsSteadily | main_game.py:53-55 | After n ticks an enemy has fallen exactly n times its speed and is still in its column |
| Entities.NewMeteor | main_game.py:151-158 | A meteor sits at its spawn point, with x in 0..1280 and above the window, with its hitbox built from its position and sprite size |
| Entities.MeteorTick | main_game.py:160-162 | A meteor falls by 10 pixels, keeps its column and size, and gets a hitbox at its new position |
| Entities.NewBullet | main_game.py:116-120 | A new bullet's sprite is centred on the given point, with the odd pixel of an odd size to the right of or below the centre |
| Entities.BulletTick | main_game.py:122-123 | A tick raises the bullet by exactly 15 pixels and changes nothing else |
| Entities.UpdateBullets | main_game.py:122-128 | Updating the group never adds bullets, and no bullet left after the update has its bottom edge above the window |
| Entities.UpdateBulletsKeepsOnScreen | main_game.py:122-125 | A bullet stays in the group exactly when its bottom edge is not above the window after it rises; every bullet kept is a moved bullet of the group |
| Entities.NewCoin | main_game.py:135-141 | A coin sits at its spawn point, with x in 0..1280 and y in 0..720, with its hitbox on its position |
| Entities.CoinTick | main_game.py:143-144 | A coin tick re-anchors the hitbox on the coin's unchanged position, which leaves an already anchored coin unchanged |
| Entities.NewMedkit | main_game.py:11-17 | A medkit sits at its spawn point, at least 50 pixels inside the window's edges (x in 50..1230, y in 50..670), with its hitbox on its position |
| Entities.NewBackground | main_game.py:169-174 | The two strips start at 0 and at one image height above it |
| Entities.BackgroundTick | main_game.py:176-183 | Each strip scrolls 7 pixels, and is moved one height above the other strip exactly when the scroll took it to the window's bottom edge (720) or below; the second test sees the first strip's new position. Strips stacked one height apart and above the bottom edge stay so, given an image at least 7 pixels tall |
| Entities.LowerStripCoversWindow | main_game.py:185-187 | Two stacked strips whose lower one starts between the window height minus one image height and one image height cover every row of the window |
| Entities.ScrollKeepsWindowCovered | main_game.py:176-187 | With an image at least as tall as the window, a tick of a background that covers the window leaves it covering every row |
| Entities.NewBackgroundCovers | main_game.py:169-174 | With an image at least as tall as the window, the initial strips already cover every row |
| Contacts.MedkitContacts | main_game.py:262-265 | Every medkit the player touches is removed, others kept; health becomes 3 if any was touched and is unchanged otherwise |
| Contacts.MeteorContacts | main_game.py:267-272 | Every meteor the player touches is removed and costs one health; the game is over exactly when it already was or a meteor was touched and health ended at zero or below |
| Contacts.EnemyContact | main_game.py:274-276 | The game is over exactly when it already was or the player touches some enemy; the enemy loop has no other output, so it removes no enemy and leaves health alone |
| Contacts.CollectCoins | main_game.py:283-289 | Every coin touched is removed and counted; points never drop, and from a counter in 0..2 the counter stays in 0..2 with three coins per point earned plus the counter accounting for every coin |
| Contacts.CoinsBankInThrees | main_game.py:283-289 | Points earned are the whole threes among the old counter plus the coins collected, and the new counter is the remainder |
| Shooting.ShootMeteors | main_game.py:309-314 | A bullet removes at most one meteor: the first it overlaps, or none exactly when it overlaps none; every meteor left was there before |
| Shooting.ShootEnemies | main_game.py:316-323 | A bullet hits the first enemy it overlaps, if any. That enemy loses one health and is removed exactly when its health reaches zero or below; no other enemy changes and none moves. When every enemy has health left, they all still do afterwards, and a hit lowers their total health by exactly one |
| Shooting.ResolveBullet | main_game.py:308-323 | One bullet runs the meteor loop and then the enemy loop on the enemy list it was given, whatever the meteor loop did. It earns one point per meteor and five per enemy destroyed, at most six in all. It is spent exactly when it overlapped a meteor or an enemy; a bullet that is not spent changes nothing |
| Shooting.MeteorKillStillShootsEnemy | main_game.py:309-323 | The `break` at line 314 leaves only the meteor loop: a bullet that destroys a meteor still damages the first enemy it overlaps, removes it at zero health, and earns both rewards |
| Shooting.ResolveBullets | main_game.py:308-323 | The score never drops and rises by exactly one per meteor and five per enemy destroyed. Every destroyed meteor and every destroyed enemy costs a bullet, and no meteor or enemy moves. Every bullet that overlaps nothing at the start survives, and no bullet left after the loop overlaps a meteor or enemy left after it. When every enemy has health left, they all still do afterwards, and the enemies' total health never rises and drops by at most one per spent bullet. If no meteor is destroyed, no bullet overlapped any meteor; if every enemy has health left and their total health is unchanged, no bullet overlapped any enemy. A meteor or enemy that no bullet overlaps survives the loop unchanged |
| Shooting.MeteorHitDestroysMeteor | main_game.py:308-314 | If any bullet overlaps any meteor, the loop destroys at least one meteor |
| Shooting.EnemyHitWounds | main_game.py:316-323 | If any bullet overlaps any enemy, and every enemy has health left, the loop lowers the enemies' total health |
| Shooting.FirstBulletKillsEnemy | main_game.py:316-323 | If the first enemy the first bullet overlaps has at most one health point, the loop destroys an enemy |
| Shooting.QuietVolley | main_game.py:308-323 | When no bullet overlaps any meteor or enemy, the loop keeps every bullet in order and changes nothing else |
| Shooting.AddClearBullet | main_game.py:308-323 | A bullet that overlaps no meteor or enemy it was shown keeps the group free of overlaps when it stays alive |
| Frame.Arrive | main_game.py:241-257 | Each timer's spawn becomes one entity built by its class's constructor at the drawn position: a coin, a medkit, a meteor, or an enemy with its class's speed and health (at least 1) |
| Frame.NewGame | main_game.py:194-211 | A game starts with the ship at (600, 600) and full health, not over, with score and coin counter 0, no bullets, coins, meteors, enemies or medkits, and the background strips at 0 and one image height above |
| Frame.TickCoins | main_game.py:259-260 | Every coin re-anchors its hitbox, of unchanged size, on its unchanged position; the list keeps its length |
| Frame.TickEnemies | main_game.py:278-279 | Every enemy falls by its own speed in its own column, with speed, health and hitbox size kept and its hitbox following |
| Frame.TickMeteors | main_game.py:330-332 | Every meteor falls by 10 pixels in its own column, keeps its size, and gets a hitbox at its new position |
| Frame.Fire | main_game.py:222-225 | Each space-bar press adds one bullet of the bullet image's size, centred horizontally on the ship and vertically on its top edge |
| Frame.NewGameInvariant | main_game.py:194-211 | The starting state satisfies the between-frames invariant when the ship sprite fits the window and the background is at least 7 pixels tall |
| Frame.Play | main_game.py:237-332 | A running frame moves the ship into the window and never lowers the score; it keeps the coin counter in 0..2 and every enemy with health left |
| Frame.Step | main_game.py:213-238 | A frame never lowers the score and preserves the between-frames invariant. Once the game is over only fired bullets accumulate; nothing else changes |
| Frame.FrameContactRules | main_game.py:259-289 | In a running frame, health is 3 if a medkit was touched (else unchanged), minus one per meteor touched. The game ends exactly on enemy contact or on meteor damage to zero. Enemies leave only through bullets, which add one point per meteor and five per enemy |
| Frame.Run | main_game.py:213-337 | Over any sequence of frames the score never decreases and a finished game stays finished |
| Frame.RunAppend | main_game.py:213-337 | Playing two sequences of frames one after the other gives the same state as playing their concatenation |
| Frame.RunKeepsInvariant | main_game.py:213-337 | Over any sequence of frames the invariant holds, the score never decreases, and a finished game stays finished |

## Left out

- Drawing is not modelled: `draw` methods, `blit`, font rendering, the score and counter texts, the game-over screen and display updates (lines 22-23, 41-51, 57-67, 111-112, 130-131, 146-147, 164-165, 185-187, 227-231, 291-306, 325-331, 333-337). They only produce pixels. `Enemy` defines `tick` and `draw` twice (lines 37-39 and 53-55, 41-51 and 57-67); the later definitions, identical to the earlier ones, are the ones in effect, and `Entities.EnemyTick` models `tick`.
- Image loading and the images themselves are not modelled. Sprite sizes are natural-number parameters.
- Event polling and key reading are not modelled. `FrameInput` carries the held arrow keys and the number of space-bar presses instead.
- The `QUIT` event, which ends the loop, is not modelled; it does not change the game state.
- The wall-clock timers driven by `delta_time` and their spawn thresholds (lines 214-218, 241-257) are not modelled; they are floating-point clock logic. Which spawns happen in a frame arrives in `FrameInput.spawns`; the entities are appended in the source's order.
- `randint` positions and the random enemy class in `spawn_enemy` are parameters, restricted to `randint`'s ranges.
- The enemy health-bar width (lines 50, 66) is not modelled; it is float arithmetic used only for drawing.
- The restart on `R` is not modelled. It calls `main()` recursively, which starts a fresh game state with `NewGame`.
- `Medkit.tick` is not modelled, because the main loop never calls it.
- The internals of pygame's `Rect` and sprite `Group` are not part of this model. `colliderect` and `clamp_ip` are stated with pygame's semantics. A group is an insertion-ordered sequence. Rectangles with negative sizes are not modelled, since sprite sizes are non-negative. pygame stores `Rect` coordinates in 32 bits, and this is not modelled either: enemies and meteors that leave the screen are never removed and keep falling by their speed every frame (lines 54 and 161), so after about 2^31 / speed frames the real `Rect` would overflow, while the model's integers are unbounded. The claims over any number of frames (`Frame.Run`, `Frame.RunKeepsInvariant`) hold for unbounded integers.
- Player, enemy and coin width/height fields are represented only by their hitbox size; `Frame.Fire` reads the ship's width (line 224) as `p.hitbox.w`. Meteors keep theirs, because `Meteor.tick` rebuilds the hitbox from them.
- Scans.Keep: its contract gives the count of kept entities and membership in both directions, but not their order or multiplicity. Order preservation follows from its definition, which is the reference filter.
- Entities.UpdateBulletsKeepsOnScreen: states membership in both directions, but not the order or multiplicity of the kept bullets.

=== FILE: contacts.dfy ===
/**
 The player-contact section of one frame of the main loop: medkits heal,
 meteors hurt, enemies end the game, and coins are banked three to a point.
 Each rule is written as the loop the game runs (front to back over a
 snapshot of the list, removing what it hits) and its contract gives the
 loop's net effect in terms of the reference scans of module Scans.
 */
module Contacts {
  import opened Geometry
  import opened Scans
  import opened Entities

  /** Health and remaining medkits after the medkit loop. */
  datatype Healing = Healing(health: int, medkits: seq<Medkit>)

  /** Every medkit the player touches is picked up and resets health to full;
      if none is touched health is left alone. */
  function MedkitContacts(hb: Rect, health: int, ms: seq<Medkit>): (r: Healing)
    ensures r.medkits == Keep(hb, ms, MedkitBox)
    ensures CountHits(hb, ms, MedkitBox) > 0 ==> r.health == PlayerFullHealth
    ensures CountHits(hb, ms, MedkitBox) == 0 ==> r.health == health
    decreases |ms|
  {
    if |ms| == 0 then Healing(health, [])
    else if Collides(hb, MedkitBox(ms[0])) then MedkitContacts(hb, PlayerFullHealth, ms[1..])
    else
      var rest := MedkitContacts(hb, health, ms[1..]);
      rest.(medkits := [ms[0]] + rest.medkits)
  }

  /** Health, game-over flag and remaining meteors after the meteor loop. */
  datatype Impact = Impact(health: int, gameOver: bool, meteors: seq<Meteor>)

  /** Every meteor the player touches is destroyed and costs one health point;
      the game is over as soon as health drops to zero or below. */
  function MeteorContacts(hb: Rect, health: int, over: bool, ms: seq<Meteor>): (r: Impact)
    ensures r.meteors == Keep(hb, ms, MeteorBox)
    ensures r.health == health - CountHits(hb, ms, MeteorBox)
    ensures r.gameOver <==> over || (CountHits(hb, ms, MeteorBox) > 0 && r.health <= 0)
    decreases |ms|
  {
    if |ms| == 0 then Impact(health, over, [])
    else if Collides(hb, MeteorBox(ms[0])) then
      var h := health - 1;
      MeteorContacts(hb, h, over || h <= 0, ms[1..])
    else
      var rest := MeteorContacts(hb, health, over, ms[1..]);
      rest.(meteors := [ms[0]] + rest.meteors)
  }

  /** The enemy loop only raises the game-over flag: it touches neither the
      enemy list nor the player's health. */
  function EnemyContact(hb: Rect, over: bool, es: seq<Enemy>): (r: bool)
    ensures r <==> over || exists i :: 0 <= i < |es| && Collides(hb, es[i].hitbox)
    decreases |es|
  {
    if |es| == 0 then over
    else EnemyContact(hb, over || Collides(hb, EnemyBox(es[0])), es[1..])
  }

  /** Coins needed for one point. */
  const CoinsPerPoint: int := 3

  /** Coin counter, points and remaining coins after the coin loop. */
  datatype Purse = Purse(coinCount: int, points: int, coins: seq<Coin>)

  /** Every coin the player touches is picked up and counted; the third coin
      turns into a point and the counter starts over. */
  function CollectCoins(hb: Rect, count: int, points: int, cs: seq<Coin>): (r: Purse)
    ensures r.coins == Keep(hb, cs, CoinBox)
    ensures r.points >= points
    ensures 0 <= count < CoinsPerPoint ==>
              && 0 <= r.coinCount < CoinsPerPoint
              && CoinsPerPoint * (r.points - points) + r.coinCount == count + CountHits(hb, cs, CoinBox)
    ensures count >= CoinsPerPoint ==>
              r.coinCount == count + CountHits(hb, cs, CoinBox) && r.points == points
    decreases |cs|
  {
    if |cs| == 0 then Purse(count, points, [])
    else if Collides(hb, CoinBox(cs[0])) then
      var c := count + 1;
      if c == CoinsPerPoint then CollectCoins(hb, 0, points + 1, cs[1..])
      else CollectCoins(hb, c, points, cs[1..])
    else
      var rest := CollectCoins(hb, count, points, cs[1..]);
      rest.(coins := [cs[0]] + rest.coins)
  }

  /** Closed form of the coin loop: with the counter below three on entry,
      the points earned are the whole threes among the counter plus the coins
      picked up, and the counter keeps the remainder. */
  lemma CoinsBankInThrees(hb: Rect, count: int, points: int, cs: seq<Coin>)
    requires 0 <= count < CoinsPerPoint
    ensures CollectCoins(hb, count, points, cs).points
            == points + (count + CountHits(hb, cs, CoinBox)) / CoinsPerPoint
    ensures CollectCoins(hb, count, points, cs).coinCount
            == (count + CountHits(hb, cs, CoinBox)) % CoinsPerPoint
  {
    var r := CollectCoins(hb, count, points, cs);
    var n := count + CountHits(hb, cs, CoinBox);
    DivModUnique(n, r.points - points, r.coinCount);
  }

  /** Quotient and remainder by three are determined by n = 3q + m, 0 <= m < 3. */
  lemma DivModUnique(n: int, q: int, m: int)
    requires n == CoinsPerPoint * q + m && 0 <= m < CoinsPerPoint
    ensures n / CoinsPerPoint == q && n % CoinsPerPoint == m
  {
  }
}

=== FILE: entities.dfy ===
/**
 The game's entities and their per-frame `tick` updates: the player ship,
 the three enemy kinds, meteors, bullets, coins, medkits and the scrolling
 background. Image sizes are plain numbers (the images themselves are not
 modelled); random spawn positions are parameters constrained to the range
 `randint` draws from.
 */
module Entities {
  import opened Geometry

  // ---------------------------------------------------------------- player

  /** Which arrow keys are held this frame. */
  datatype Keys = Keys(up: bool, left: bool, down: bool, right: bool)

  const NoKeys: Keys := Keys(false, false, false, false)

  /** Pixels moved per held arrow key per frame. */
  const PlayerSpeed: int := 10
  const PlayerFullHealth: int := 3
  const PlayerStartX: int := 600
  const PlayerStartY: int := 600

  /** The player ship: its drawing position, its hitbox and its health. */
  datatype Player = Player(x: int, y: int, hitbox: Rect, health: int)

  /** The drawing position is the hitbox's top-left corner. */
  predicate PlayerSynced(p: Player) {
    p.x == p.hitbox.x && p.y == p.hitbox.y
  }

  /** A fresh player at (600, 600) with full health and a w x h sprite. */
  function NewPlayer(w: nat, h: nat): (p: Player)
    ensures p.x == PlayerStartX && p.y == PlayerStartY
    ensures PlayerSynced(p) && p.hitbox.w == w && p.hitbox.h == h
    ensures p.health == PlayerFullHealth
  {
    Player(PlayerStartX, PlayerStartY, Rect(PlayerStartX, PlayerStartY, w, h), PlayerFullHealth)
  }

  /** `Player.tick`: each held arrow key moves the ship by the player's speed
      (up, left, down, right, in that order); the hitbox is then moved to the
      new position, clamped into the window, and the position is read back
      from the clamped hitbox. */
  function PlayerTick(p: Player, keys: Keys): (q: Player)
    ensures PlayerSynced(q)
    ensures q.hitbox.w == p.hitbox.w && q.hitbox.h == p.hitbox.h
    ensures q.health == p.health
    ensures Fits(p.hitbox, Screen) ==> Inside(q.hitbox, Screen)
  {
    var y1 := if keys.up then p.y - PlayerSpeed else p.y;
    var x1 := if keys.left then p.x - PlayerSpeed else p.x;
    var y2 := if keys.down then y1 + PlayerSpeed else y1;
    var x2 := if keys.right then x1 + PlayerSpeed else x1;
    var hb := ClampIp(p.hitbox.(x := x2, y := y2), Screen);
    Player(hb.x, hb.y, hb, p.health)
  }

  /** Signed displacement a key pair asks for: +speed for the positive key,
      -speed for the negative one. */
  function Axis(negative: bool, positive: bool): int {
    (if positive then PlayerSpeed else 0) - (if negative then PlayerSpeed else 0)
  }

  /** The target the keys ask for, before clamping. */
  function Target(p: Player, keys: Keys): Rect {
    p.hitbox.(x := p.x + Axis(keys.left, keys.right), y := p.y + Axis(keys.up, keys.down))
  }

  /** A tick is the keys' displacement followed by clamping into the window;
      when the target already lies inside the window the ship lands on it. */
  lemma PlayerTickMovesThenClamps(p: Player, keys: Keys)
    ensures PlayerTick(p, keys).hitbox == ClampIp(Target(p, keys), Screen)
    ensures Inside(Target(p, keys), Screen) ==>
              PlayerTick(p, keys).x == p.x + Axis(keys.left, keys.right) &&
              PlayerTick(p, keys).y == p.y + Axis(keys.up, keys.down)
  {
  }

  /** Holding two opposite keys is the same as holding neither: up against
      down, and left against right. */
  lemma OppositeKeysCancel(p: Player, keys: Keys)
    ensures keys.up && keys.down ==>
              PlayerTick(p, keys) == PlayerTick(p, keys.(up := false, down := false))
    ensures keys.left && keys.right ==>
              PlayerTick(p, keys) == PlayerTick(p, keys.(left := false, right := false))
  {
  }

  /** With no key held, a ship already inside the window stays where it is. */
  lemma IdlePlayerStays(p: Player)
    requires PlayerSynced(p) && Inside(p.hitbox, Screen)
    ensures PlayerTick(p, NoKeys) == p
  {
  }

  // --------------------------------------------------------------- enemies

  /** The three enemy classes. */
  datatype EnemyKind = Tank | Fast | Classic

  /** Falling speed and starting health of each class. */
  function KindSpeed(k: EnemyKind): int {
    match k
    case Tank => 2
    case Fast => 10
    case Classic => 5
  }

  function KindHealth(k: EnemyKind): int {
    match k
    case Tank => 3
    case Fast => 1
    case Classic => 2
  }

  /** Health drawn as a full bar. */
  const EnemyMaxHealth: int := 3

  datatype Enemy = Enemy(x: int, y: int, hitbox: Rect, speed: int, health: int)

  predicate EnemySynced(e: Enemy) {
    e.x == e.hitbox.x && e.y == e.hitbox.y
  }

  /** An enemy of the given class spawned at (x, y), drawn from
      `randint(0, 1280)` and `randint(-200, -50)`, above the window. */
  function NewEnemy(kind: EnemyKind, x: int, y: int, w: nat, h: nat): (e: Enemy)
    requires 0 <= x <= ScreenWidth && -200 <= y <= -50
    ensures e.x == x && e.y == y
    ensures EnemySynced(e) && e.hitbox.w == w && e.hitbox.h == h
    ensures 0 <= e.x <= ScreenWidth && e.y < 0
    ensures 0 < e.speed && 0 < e.health <= EnemyMaxHealth
    ensures kind == Tank ==> e.speed == 2 && e.health == 3
    ensures kind == Fast ==> e.speed == 10 && e.health == 1
    ensures kind == Classic ==> e.speed == 5 && e.health == 2
  {
    Enemy(x, y, Rect(x, y, w, h), KindSpeed(kind), KindHealth(kind))
  }

  /** `Enemy.tick`: the enemy falls by its speed; the hitbox follows. */
  function EnemyTick(e: Enemy): (f: Enemy)
    ensures f.y == e.y + e.speed && f.x == e.x
    ensures EnemySynced(f)
    ensures f.hitbox.w == e.hitbox.w && f.hitbox.h == e.hitbox.h
    ensures f.speed == e.speed && f.health == e.health
  {
    var y := e.y + e.speed;
    e.(y := y, hitbox := e.hitbox.(x := e.x, y := y))
  }

  /** The enemy after n frames. */
  function EnemyAfter(e: Enemy, n: nat): Enemy {
    if n == 0 then e else EnemyTick(EnemyAfter(e, n - 1))
  }

  /** Over n frames an enemy falls n times its speed and keeps its column. */
  lemma {:induction false} EnemyFallsSteadily(e: Enemy, n: nat)
    ensures EnemyAfter(e, n).y == e.y + n * e.speed
    ensures EnemyAfter(e, n).x == e.x && EnemyAfter(e, n).speed == e.speed
    ensures n > 0 ==> EnemySynced(EnemyAfter(e, n))
  {
    if n > 0 {
      EnemyFallsSteadily(e, n - 1);
    }
  }

  // ---------------------------------------------------------------- meteors

  const MeteorSpeed: int := 10

  /** A meteor keeps its sprite size and rebuilds its hitbox from it. */
  datatype Meteor = Meteor(x: int, y: int, width: nat, height: nat, hitbox: Rect)

  predicate MeteorSynced(m: Meteor) {
    m.hitbox == Rect(m.x, m.y, m.width, m.height)
  }

  /** A meteor spawned at (x, y) above the window. */
  function NewMeteor(x: int, y: int, w: nat, h: nat): (m: Meteor)
    requires 0 <= x <= ScreenWidth && -200 <= y <= -50
    ensures m.x == x && m.y == y
    ensures MeteorSynced(m) && m.width == w && m.height == h
    ensures 0 <= m.x <= ScreenWidth && m.y < 0
  {
    Meteor(x, y, w, h, Rect(x, y, w, h))
  }

  /** `Meteor.tick`: the meteor falls by the meteor speed and gets a fresh
      hitbox at its new position. */
  function MeteorTick(m: Meteor): (n: Meteor)
    ensures n.y == m.y + MeteorSpeed && n.x == m.x
    ensures MeteorSynced(n)
    ensures n.width == m.width && n.height == m.height
  {
    var y := m.y + MeteorSpeed;
    m.(y := y, hitbox := Rect(m.x, y, m.width, m.height))
  }

  // ---------------------------------------------------------------- bullets

  const BulletSpeed: int := 15

  datatype Bullet = Bullet(rect: Rect)

  /** A bullet whose w x h sprite is centred on (cx, cy); with an odd size the
      extra pixel falls right of and below the centre. */
  function NewBullet(cx: int, cy: int, w: nat, h: nat): (b: Bullet)
    ensures b.rect.w == w && b.rect.h == h
    ensures 2 * cx <= 2 * b.rect.x + w <= 2 * cx + 1
    ensures 2 * cy <= 2 * b.rect.y + h <= 2 * cy + 1
  {
    Bullet(Rect(cx - w / 2, cy - h / 2, w, h))
  }

  /** A bullet that has left the window through the top. */
  predicate Gone(b: Bullet) {
    b.rect.Bottom() < 0
  }

  /** The movement half of `Bullet.tick`: the bullet rises. */
  function BulletTick(b: Bullet): (c: Bullet)
    ensures c.rect.y == b.rect.y - BulletSpeed
    ensures c.rect.x == b.rect.x && c.rect.w == b.rect.w && c.rect.h == b.rect.h
  {
    Bullet(b.rect.(y := b.rect.y - BulletSpeed))
  }

  /** `bullets.update()`: every bullet of the group ticks, and a bullet whose
      bottom edge is then above the window kills itself. */
  function UpdateBullets(bs: seq<Bullet>): (r: seq<Bullet>)
    ensures |r| <= |bs|
    ensures forall i :: 0 <= i < |r| ==> !Gone(r[i])
  {
    if |bs| == 0 then []
    else
      var b := BulletTick(bs[0]);
      if Gone(b) then UpdateBullets(bs[1..]) else [b] + UpdateBullets(bs[1..])
  }

  /** The bullet before its last tick. */
  function Untick(b: Bullet): Bullet {
    Bullet(b.rect.(y := b.rect.y + BulletSpeed))
  }

  /** After an update the group holds exactly the moved bullets that are still
      (partly) on screen: every such bullet is kept, and every kept bullet is
      the moved version of one that was in the group. */
  lemma {:induction false} UpdateBulletsKeepsOnScreen(bs: seq<Bullet>)
    ensures forall i :: 0 <= i < |bs| && !Gone(BulletTick(bs[i])) ==> BulletTick(bs[i]) in UpdateBullets(bs)
    ensures forall b :: b in UpdateBullets(bs) ==> Untick(b) in bs && b == BulletTick(Untick(b))
  {
    if |bs| > 0 {
      UpdateBulletsKeepsOnScreen(bs[1..]);
      var rest := UpdateBullets(bs[1..]);
      forall i | 0 <= i < |bs| && !Gone(BulletTick(bs[i]))
        ensures BulletTick(bs[i]) in UpdateBullets(bs)
      {
        if i > 0 {
          assert bs[i] == bs[1..][i - 1];
        }
      }
      forall b | b in UpdateBullets(bs)
        ensures Untick(b) in bs
      {
        if b in rest {
          assert Untick(b) in bs[1..];
        }
      }
    }
  }

  // ------------------------------------------------------- coins and medkits

  datatype Coin = Coin(x: int, y: int, hitbox: Rect)

  predicate CoinSynced(c: Coin) {
    c.x == c.hitbox.x && c.y == c.hitbox.y
  }

  /** A coin placed at (x, y) anywhere in the window. */
  function NewCoin(x: int, y: int, w: nat, h: nat): (c: Coin)
    requires 0 <= x <= ScreenWidth && 0 <= y <= ScreenHeight
    ensures c.x == x && c.y == y
    ensures CoinSynced(c) && c.hitbox.w == w && c.hitbox.h == h
    ensures 0 <= c.x <= ScreenWidth && 0 <= c.y <= ScreenHeight
  {
    Coin(x, y, Rect(x, y, w, h))
  }

  /** `Coin.tick`: coins do not move; the hitbox is re-anchored on the coin. */
  function CoinTick(c: Coin): (d: Coin)
    ensures CoinSynced(d)
    ensures d.x == c.x && d.y == c.y && d.hitbox.w == c.hitbox.w && d.hitbox.h == c.hitbox.h
    ensures CoinSynced(c) ==> d == c
  {
    c.(hitbox := c.hitbox.(x := c.x, y := c.y))
  }

  datatype Medkit = Medkit(x: int, y: int, hitbox: Rect)

  /** A medkit placed at (x, y), at least 50 pixels from the window's left
      and top edges and at most 50 from its right and bottom ones. */
  function NewMedkit(x: int, y: int, w: nat, h: nat): (m: Medkit)
    requires 50 <= x <= ScreenWidth - 50 && 50 <= y <= ScreenHeight - 50
    ensures m.x == x && m.y == y
    ensures m.x == m.hitbox.x && m.y == m.hitbox.y
    ensures m.hitbox.w == w && m.hitbox.h == h
    ensures 50 <= m.x <= ScreenWidth - 50 && 50 <= m.y <= ScreenHeight - 50
  {
    Medkit(x, y, Rect(x, y, w, h))
  }

  /** Hitbox projections, for the collision scans. */
  function EnemyBox(e: Enemy): Rect { e.hitbox }
  function MeteorBox(m: Meteor): Rect { m.hitbox }
  function CoinBox(c: Coin): Rect { c.hitbox }
  function MedkitBox(m: Medkit): Rect { m.hitbox }

  // ------------------------------------------------------------- background

  /** Pixels the background scrolls down per frame. */
  const ScrollSpeed: int := 7

  /** Two copies of a background image of the given height, drawn one above
      the other at full window width. */
  datatype Background = Background(y1: int, y2: int, height: nat)

  function NewBackground(height: nat): (bg: Background)
    ensures bg.y1 == 0 && bg.y2 == -(height as int) && bg.height == height
  {
    Background(0, -(height as int), height)
  }

  /** The two strips sit exactly one image height apart, both starting above
      the bottom of the window. */
  predicate Stacked(bg: Background) {
    && (bg.y2 == bg.y1 - bg.height || bg.y1 == bg.y2 - bg.height)
    && bg.y1 < ScreenHeight && bg.y2 < ScreenHeight
  }

  /** `Background.tick`: both strips scroll down; a strip that has reached the
      bottom of the window is put one image height above the other one (the
      second test already sees the first strip's new position). */
  function BackgroundTick(bg: Background): (r: Background)
    ensures r.height == bg.height
    ensures r.y1 == bg.y1 + ScrollSpeed || r.y1 == bg.y2 + ScrollSpeed - bg.height
    ensures r.y2 == bg.y2 + ScrollSpeed || r.y2 == r.y1 - bg.height
    ensures bg.y1 + ScrollSpeed < ScreenHeight ==> r.y1 == bg.y1 + ScrollSpeed
    ensures bg.y1 + ScrollSpeed >= ScreenHeight ==> r.y1 == bg.y2 + ScrollSpeed - bg.height
    ensures bg.y2 + ScrollSpeed < ScreenHeight ==> r.y2 == bg.y2 + ScrollSpeed
    ensures bg.y2 + ScrollSpeed >= ScreenHeight ==> r.y2 == r.y1 - bg.height
    ensures Stacked(bg) && bg.height >= ScrollSpeed ==> Stacked(r)
  {
    var a := bg.y1 + ScrollSpeed;
    var b := bg.y2 + ScrollSpeed;
    var a' := if a >= ScreenHeight then b - bg.height else a;
    var b' := if b >= ScreenHeight then a' - bg.height else b;
    Background(a', b', bg.height)
  }

  /** Row `row` of the window shows one of the two strips. */
  predicate ShowsRow(bg: Background, row: int) {
    (bg.y1 <= row < bg.y1 + bg.height) || (bg.y2 <= row < bg.y2 + bg.height)
  }

  /** Every row of the window shows part of the background. */
  predicate CoversWindow(bg: Background) {
    forall row :: 0 <= row < ScreenHeight ==> ShowsRow(bg, row)
  }

  /** Closed form of coverage for stacked strips: the lower strip starts no
      lower than one height and no higher than the window height minus one
      height. */
  predicate LowerStripCovers(bg: Background) {
    var lower := if bg.y1 >= bg.y2 then bg.y1 else bg.y2;
    lower <= bg.height && ScreenHeight <= lower + bg.height
  }

  lemma LowerStripCoversWindow(bg: Background)
    requires Stacked(bg) && LowerStripCovers(bg)
    ensures CoversWindow(bg)
  {
    forall row | 0 <= row < ScreenHeight
      ensures ShowsRow(bg, row)
    {
    }
  }

  /** With an image at least as tall as the window, scrolling never shows a
      gap: the initial placement covers the window and every tick keeps it
      covered. */
  lemma {:induction false} ScrollKeepsWindowCovered(bg: Background)
    requires bg.height >= ScreenHeight
    requires Stacked(bg) && LowerStripCovers(bg)
    ensures Stacked(BackgroundTick(bg)) && LowerStripCovers(BackgroundTick(bg))
    ensures CoversWindow(BackgroundTick(bg))
  {
    LowerStripCoversWindow(BackgroundTick(bg));
  }

  lemma NewBackgroundCovers(height: nat)
    requires height >= ScreenHeight
    ensures Stacked(NewBackground(height)) && LowerStripCovers(NewBackground(height))
    ensures CoversWindow(NewBackground(height))
  {
    LowerStripCoversWindow(NewBackground(height));
  }
}

=== FILE: frame.dfy ===
/**
 One iteration of the game's main loop as a pure step on an immutable game
 state. The frame's inputs are the held arrow keys, the number of times the
 space bar was pressed, and the spawns the timers asked for this frame, as
 the random positions (and the enemy class) that `randint` drew for them.
 Image sizes are fixed for a game. Drawing, timers and the restart key are
 not part of the model.
 */
module Frame {
  import opened Geometry
  import opened Scans
  import opened Entities
  import opened Contacts
  import opened Shooting

  /** The size of one image. */
  datatype Size = Size(w: nat, h: nat)

  /** The sizes of the game's images: the ship, the background's height, a
      bullet, a coin, a medkit, a meteor and each enemy class. */
  datatype Sprites = Sprites(player: Size, background: nat, bullet: Size, coin: Size, medkit: Size,
                             meteor: Size, tank: Size, fast: Size, classic: Size)

  function EnemySprite(sp: Sprites, kind: EnemyKind): Size {
    match kind
    case Tank => sp.tank
    case Fast => sp.fast
    case Classic => sp.classic
  }

  /** Everything the main loop keeps between frames, with the image sizes the
      constructors of new entities need. */
  datatype GameState = GameState(
    player: Player,
    bullets: seq<Bullet>,
    background: Background,
    coins: seq<Coin>,
    meteors: seq<Meteor>,
    enemies: seq<Enemy>,
    medkits: seq<Medkit>,
    points: int,
    coinCount: int,
    gameOver: bool,
    sprites: Sprites)

  /** A spawn position drawn by `randint`. */
  datatype Spot = Spot(x: int, y: int)

  /** An enemy spawn: the class `spawn_enemy` picked and its position. */
  datatype EnemySpawn = EnemySpawn(kind: EnemyKind, at: Spot)

  /** At most one spawn of each kind per frame. */
  datatype Spawns = Spawns(coin: Option<Spot>, medkit: Option<Spot>, enemy: Option<EnemySpawn>, meteor: Option<Spot>)

  /** Every spawn position lies in the range `randint` draws it from. */
  predicate SpawnsInRange(sw: Spawns) {
    && (sw.coin.Some? ==> 0 <= sw.coin.value.x <= ScreenWidth && 0 <= sw.coin.value.y <= ScreenHeight)
    && (sw.medkit.Some? ==>
          50 <= sw.medkit.value.x <= ScreenWidth - 50 && 50 <= sw.medkit.value.y <= ScreenHeight - 50)
    && (sw.enemy.Some? ==> 0 <= sw.enemy.value.at.x <= ScreenWidth && -200 <= sw.enemy.value.at.y <= -50)
    && (sw.meteor.Some? ==> 0 <= sw.meteor.value.x <= ScreenWidth && -200 <= sw.meteor.value.y <= -50)
  }

  /** The entities a frame's spawns create. */
  datatype Arrivals = Arrivals(coin: Option<Coin>, medkit: Option<Medkit>, enemy: Option<Enemy>, meteor: Option<Meteor>)

  /** Each spawn is built by its class's constructor at the drawn position,
      with the size of its image. */
  function Arrive(sp: Sprites, sw: Spawns): (a: Arrivals)
    requires SpawnsInRange(sw)
    ensures a.coin.Some? <==> sw.coin.Some?
    ensures a.medkit.Some? <==> sw.medkit.Some?
    ensures a.enemy.Some? <==> sw.enemy.Some?
    ensures a.meteor.Some? <==> sw.meteor.Some?
    ensures a.coin.Some? ==> a.coin.value.x == sw.coin.value.x && a.coin.value.y == sw.coin.value.y
    ensures a.medkit.Some? ==> a.medkit.value.x == sw.medkit.value.x && a.medkit.value.y == sw.medkit.value.y
    ensures a.meteor.Some? ==> a.meteor.value.x == sw.meteor.value.x && a.meteor.value.y == sw.meteor.value.y
    ensures a.enemy.Some? ==>
              && a.enemy.value.x == sw.enemy.value.at.x && a.enemy.value.y == sw.enemy.value.at.y
              && a.enemy.value.speed == KindSpeed(sw.enemy.value.kind)
              && a.enemy.value.health == KindHealth(sw.enemy.value.kind) >= 1
  {
    Arrivals(
      match sw.coin
      case None => None
      case Some(c) => Some(NewCoin(c.x, c.y, sp.coin.w, sp.coin.h)),
      match sw.medkit
      case None => None
      case Some(m) => Some(NewMedkit(m.x, m.y, sp.medkit.w, sp.medkit.h)),
      match sw.enemy
      case None => None
      case Some(e) =>
        var size := EnemySprite(sp, e.kind);
        Some(NewEnemy(e.kind, e.at.x, e.at.y, size.w, size.h)),
      match sw.meteor
      case None => None
      case Some(m) => Some(NewMeteor(m.x, m.y, sp.meteor.w, sp.meteor.h)))
  }

  datatype FrameInput = FrameInput(keys: Keys, shots: nat, spawns: Spawns)

  function Append<T>(xs: seq<T>, o: Option<T>): (ys: seq<T>)
    ensures o.None? ==> ys == xs
    ensures o.Some? ==> ys == xs + [o.value]
  {
    match o
    case None => xs
    case Some(x) => xs + [x]
  }

  /** The state `main()` starts with. */
  function NewGame(sp: Sprites): (g: GameState)
    ensures g.player.x == PlayerStartX && g.player.y == PlayerStartY
    ensures g.player.health == PlayerFullHealth && !g.gameOver
    ensures g.points == 0 && g.coinCount == 0
    ensures g.bullets == [] && g.coins == [] && g.meteors == [] && g.enemies == [] && g.medkits == []
    ensures g.background.y1 == 0 && g.background.y2 == -(sp.background as int)
  {
    GameState(NewPlayer(sp.player.w, sp.player.h), [], NewBackground(sp.background),
              [], [], [], [], 0, 0, false, sp)
  }

  /** Facts that hold between frames: the player's position is its hitbox's
      corner and its sprite fits the window, the coin counter is below three,
      the background strips are stacked and scroll by less than an image
      height, the score is not negative, and every enemy has health left. */
  predicate Invariant(s: GameState) {
    && PlayerSynced(s.player) && Fits(s.player.hitbox, Screen)
    && 0 <= s.coinCount < CoinsPerPoint
    && s.background.height >= ScrollSpeed && Stacked(s.background)
    && s.points >= 0
    && AllAlive(s.enemies)
  }

  lemma NewGameInvariant(sp: Sprites)
    requires sp.player.w <= ScreenWidth && sp.player.h <= ScreenHeight && sp.background >= ScrollSpeed
    ensures Invariant(NewGame(sp))
  {
  }

  /** The bullets fired by n presses of the space bar: each is centred
      horizontally on the ship and vertically on its top edge. */
  function Fire(p: Player, n: nat, w: nat, h: nat): (bs: seq<Bullet>)
    ensures |bs| == n
    ensures forall i :: 0 <= i < n ==> bs[i].rect.w == w && bs[i].rect.h == h
    ensures forall i :: 0 <= i < n ==>
              2 * (p.x + p.hitbox.w / 2) <= 2 * bs[i].rect.x + w <= 2 * (p.x + p.hitbox.w / 2) + 1
    ensures forall i :: 0 <= i < n ==> 2 * p.y <= 2 * bs[i].rect.y + h <= 2 * p.y + 1
  {
    seq(n, _ => NewBullet(p.x + p.hitbox.w / 2, p.y, w, h))
  }

  /** Every coin re-anchors its hitbox on its unchanged position. */
  function TickCoins(cs: seq<Coin>): (r: seq<Coin>)
    ensures |r| == |cs|
    ensures forall i :: 0 <= i < |cs| ==> CoinSynced(r[i]) && r[i].x == cs[i].x && r[i].y == cs[i].y
    ensures forall i :: 0 <= i < |cs| ==> r[i].hitbox.w == cs[i].hitbox.w && r[i].hitbox.h == cs[i].hitbox.h
    ensures forall i :: 0 <= i < |cs| ==> CoinSynced(cs[i]) ==> r[i] == cs[i]
  {
    seq(|cs|, i requires 0 <= i < |cs| => CoinTick(cs[i]))
  }

  /** Every enemy falls by its own speed in its own column. */
  function TickEnemies(es: seq<Enemy>): (r: seq<Enemy>)
    ensures |r| == |es|
    ensures forall i :: 0 <= i < |es| ==> r[i].y == es[i].y + es[i].speed && r[i].x == es[i].x
    ensures forall i :: 0 <= i < |es| ==> r[i].speed == es[i].speed && r[i].health == es[i].health
    ensures forall i :: 0 <= i < |es| ==> EnemySynced(r[i])
    ensures forall i :: 0 <= i < |es| ==> r[i].hitbox.w == es[i].hitbox.w && r[i].hitbox.h == es[i].hitbox.h
  {
    seq(|es|, i requires 0 <= i < |es| => EnemyTick(es[i]))
  }

  /** Every meteor falls by the meteor speed in its own column. */
  function TickMeteors(ms: seq<Meteor>): (r: seq<Meteor>)
    ensures |r| == |ms|
    ensures forall i :: 0 <= i < |ms| ==> r[i].y == ms[i].y + MeteorSpeed && r[i].x == ms[i].x
    ensures forall i :: 0 <= i < |ms| ==> MeteorSynced(r[i])
    ensures forall i :: 0 <= i < |ms| ==> r[i].width == ms[i].width && r[i].height == ms[i].height
  {
    seq(|ms|, i requires 0 <= i < |ms| => MeteorTick(ms[i]))
  }

  /** One frame while the game is running, in the loop's order: the player
      moves, bullets update, spawns are appended, coins re-anchor, then the
      medkit, meteor and enemy contact rules run against the moved player,
      enemies fall, the background scrolls, coins are collected, bullets are
      resolved against meteors and the fallen enemies, and meteors fall last. */
  function Play(s: GameState, keys: Keys, bullets: seq<Bullet>, spawns: Spawns): (t: GameState)
    requires SpawnsInRange(spawns)
    ensures t.player == PlayerTick(s.player, keys).(health := t.player.health)
    ensures Fits(s.player.hitbox, Screen) ==> Inside(t.player.hitbox, Screen)
    ensures t.points >= s.points
    ensures t.sprites == s.sprites
    ensures 0 <= s.coinCount < CoinsPerPoint ==> 0 <= t.coinCount < CoinsPerPoint
    ensures AllAlive(s.enemies) ==> AllAlive(t.enemies)
  {
    var p := PlayerTick(s.player, keys);
    var updated := UpdateBullets(bullets);
    var arrivals := Arrive(s.sprites, spawns);
    var coins := TickCoins(Append(s.coins, arrivals.coin));
    var medkits := Append(s.medkits, arrivals.medkit);
    var enemies := Append(s.enemies, arrivals.enemy);
    var meteors := Append(s.meteors, arrivals.meteor);
    var heal := MedkitContacts(p.hitbox, p.health, medkits);
    var hurt := MeteorContacts(p.hitbox, heal.health, false, meteors);
    var over := EnemyContact(p.hitbox, hurt.gameOver, enemies);
    var fallen := TickEnemies(enemies);
    FallenAlive(s.enemies, arrivals.enemy);
    var bg := BackgroundTick(s.background);
    var purse := CollectCoins(p.hitbox, s.coinCount, s.points, coins);
    var volley := ResolveBullets(updated, hurt.meteors, fallen, purse.points);
    GameState(p.(health := hurt.health), volley.bullets, bg, purse.coins, TickMeteors(volley.meteors),
              volley.enemies, heal.medkits, volley.points, purse.coinCount, over, s.sprites)
  }

  /** Enemies that are alive stay alive as a newcomer with health joins them
      and they all fall. */
  lemma FallenAlive(es: seq<Enemy>, e: Option<Enemy>)
    requires e.Some? ==> e.value.health >= 1
    ensures AllAlive(es) ==> AllAlive(TickEnemies(Append(es, e)))
  {
  }

  /** One iteration of the main loop. Key presses are handled first, so
      bullets are fired from the ship's position before it moves, and even
      on the game-over screen; once the game is over nothing else changes. */
  function Step(s: GameState, inp: FrameInput): (t: GameState)
    requires SpawnsInRange(inp.spawns)
    ensures t.points >= s.points
    ensures s.gameOver ==> t.gameOver
    ensures s.gameOver ==> t.(bullets := s.bullets) == s
    ensures |t.bullets| <= |s.bullets| + inp.shots
    ensures Invariant(s) ==> Invariant(t)
  {
    var bullets := s.bullets + Fire(s.player, inp.shots, s.sprites.bullet.w, s.sprites.bullet.h);
    if s.gameOver then s.(bullets := bullets)
    else Play(s, inp.keys, bullets, inp.spawns)
  }

  /** The contact rules as one frame applies them, against the moved ship and
      the lists with this frame's spawns appended: medkits restore full
      health, each meteor touched costs one point of health, touching an
      enemy ends the game without removing it or costing health, and health
      at zero or below ends it too. Enemies only leave through bullets, and
      the score grows by the points from coins, one per meteor shot and five
      per enemy destroyed. */
  lemma FrameContactRules(s: GameState, inp: FrameInput)
    requires !s.gameOver && SpawnsInRange(inp.spawns)
    ensures var hb := PlayerTick(s.player, inp.keys).hitbox;
            var arrivals := Arrive(s.sprites, inp.spawns);
            var medkits := Append(s.medkits, arrivals.medkit);
            var meteors := Append(s.meteors, arrivals.meteor);
            var enemies := Append(s.enemies, arrivals.enemy);
            var t := Step(s, inp);
            && t.medkits == Keep(hb, medkits, MedkitBox)
            && t.player.health
               == (if CountHits(hb, medkits, MedkitBox) > 0 then PlayerFullHealth else s.player.health)
                  - CountHits(hb, meteors, MeteorBox)
            && (t.gameOver <==>
                  || (exists i :: 0 <= i < |enemies| && Collides(hb, enemies[i].hitbox))
                  || (CountHits(hb, meteors, MeteorBox) > 0 && t.player.health <= 0))
            && |t.meteors| <= |Keep(hb, meteors, MeteorBox)|
            && |t.enemies| <= |enemies|
            && t.points - CollectCoins(hb, s.coinCount, s.points, TickCoins(Append(s.coins, arrivals.coin))).points
               == MeteorPoints * (|Keep(hb, meteors, MeteorBox)| - |t.meteors|)
                  + EnemyKillPoints * (|enemies| - |t.enemies|)
  {
  }

  /** Every frame's spawns lie in the ranges `randint` draws from. */
  predicate InputsInRange(inputs: seq<FrameInput>) {
    forall i :: 0 <= i < |inputs| ==> SpawnsInRange(inputs[i].spawns)
  }

  /** The state after a sequence of frames. */
  function Run(s: GameState, inputs: seq<FrameInput>): (t: GameState)
    requires InputsInRange(inputs)
    ensures t.points >= s.points
    ensures s.gameOver ==> t.gameOver
    decreases |inputs|
  {
    if |inputs| == 0 then s else Run(Step(s, inputs[0]), inputs[1..])
  }

  /** Playing two sequences of frames one after the other is playing their
      concatenation. */
  lemma {:induction false} RunAppend(s: GameState, a: seq<FrameInput>, b: seq<FrameInput>)
    requires InputsInRange(a) && InputsInRange(b)
    ensures InputsInRange(a + b)
    ensures Run(s, a + b) == Run(Run(s, a), b)
    decreases |a|
  {
    if |a| > 0 {
      assert (a + b)[0] == a[0];
      assert (a + b)[1..] == a[1..] + b;
      RunAppend(Step(s, a[0]), a[1..], b);
    } else {
      assert a + b == b;
    }
  }

  /** The invariant holds after any number of frames, the score never goes
      down, and a game that is over stays over. */
  lemma {:induction false} RunKeepsInvariant(s: GameState, inputs: seq<FrameInput>)
    requires Invariant(s) && InputsInRange(inputs)
    ensures Invariant(Run(s, inputs))
    ensures Run(s, inputs).points >= s.points
    ensures s.gameOver ==> Run(s, inputs).gameOver
    decreases |inputs|
  {
    if |inputs| > 0 {
      RunKeepsInvariant(Step(s, inputs[0]), inputs[1..]);
    }
  }
}

=== FILE: geometry.dfy ===
/**
 Integer rectangles as the game uses them: pygame's `Rect`, its overlap test
 `colliderect`, and `clamp_ip`, which pulls a rectangle back inside another.
 The pygame library itself is not part of this model; the two operations are
 stated here with pygame's documented semantics.
 */
module Geometry {

  /** A rectangle with top-left corner (x, y) covering the pixels
      x <= px < x + w and y <= py < y + h. Sprite images never have a negative
      size, so width and height are natural numbers. */
  datatype Rect = Rect(x: int, y: int, w: nat, h: nat) {
    function Bottom(): int { y + h }
  }

  /** The 1280x720 window (`resolution` and `window.get_rect()`). */
  const ScreenWidth: nat := 1280
  const ScreenHeight: nat := 720
  const Screen: Rect := Rect(0, 0, ScreenWidth, ScreenHeight)

  /** Pixel (px, py) lies in the half-open area of r. */
  predicate HasPixel(r: Rect, px: int, py: int) {
    r.x <= px < r.x + r.w && r.y <= py < r.y + r.h
  }

  /** `colliderect`: rectangles of zero width or height collide with nothing;
      otherwise the open intervals of both axes must overlap, so rectangles
      that only touch along an edge do not collide. */
  predicate Collides(a: Rect, b: Rect) {
    && a.w > 0 && a.h > 0 && b.w > 0 && b.h > 0
    && a.x < b.x + b.w && b.x < a.x + a.w
    && a.y < b.y + b.h && b.y < a.y + a.h
  }

  /** The overlap test is exactly "the two rectangles share a pixel". */
  lemma CollidesIffSharedPixel(a: Rect, b: Rect)
    ensures Collides(a, b) <==> exists px, py :: HasPixel(a, px, py) && HasPixel(b, px, py)
  {
    if Collides(a, b) {
      var px := if a.x < b.x then b.x else a.x;
      var py := if a.y < b.y then b.y else a.y;
      assert HasPixel(a, px, py) && HasPixel(b, px, py);
    }
  }

  /** r lies entirely inside bounds. */
  predicate Inside(r: Rect, bounds: Rect) {
    bounds.x <= r.x && r.x + r.w <= bounds.x + bounds.w &&
    bounds.y <= r.y && r.y + r.h <= bounds.y + bounds.h
  }

  /** r is small enough to be placed inside bounds. */
  predicate Fits(r: Rect, bounds: Rect) {
    r.w <= bounds.w && r.h <= bounds.h
  }

  function Distance(a: int, b: int): nat {
    if a <= b then b - a else a - b
  }

  /** One axis of pygame's clamp: an interval of length `size` starting at
      `pos` is moved into [lo, lo + extent). When it is at least as long as the
      bounds it is centred on them (integer halves, both non-negative);
      otherwise it is pushed in from whichever side it sticks out. */
  function ClampAxis(pos: int, size: nat, lo: int, extent: nat): (r: int)
    ensures size <= extent ==> lo <= r && r + size <= lo + extent
    ensures lo <= pos && pos + size <= lo + extent ==> r == pos
    ensures size <= extent ==>
              forall q :: lo <= q && q + size <= lo + extent ==> Distance(r, pos) <= Distance(q, pos)
  {
    if size >= extent then lo + extent / 2 - size / 2
    else if pos < lo then lo
    else if pos + size > lo + extent then lo + extent - size
    else pos
  }

  /** `r.clamp_ip(bounds)`: same size, moved along each axis independently. */
  function ClampIp(r: Rect, bounds: Rect): (c: Rect)
    ensures c.w == r.w && c.h == r.h
    ensures Fits(r, bounds) ==> Inside(c, bounds)
    ensures Inside(r, bounds) ==> c == r
  {
    Rect(ClampAxis(r.x, r.w, bounds.x, bounds.w), ClampAxis(r.y, r.h, bounds.y, bounds.h), r.w, r.h)
  }

  /** Clamping moves a rectangle that fits by the least amount on each axis:
      no placement inside the bounds is closer to where it started. */
  lemma ClampIsNearest(r: Rect, bounds: Rect, q: Rect)
    requires Fits(r, bounds)
    requires q.w == r.w && q.h == r.h && Inside(q, bounds)
    ensures Distance(ClampIp(r, bounds).x, r.x) <= Distance(q.x, r.x)
    ensures Distance(ClampIp(r, bounds).y, r.y) <= Distance(q.y, r.y)
  {
  }

  /** Clamping twice is the same as clamping once. */
  lemma ClampIdempotent(r: Rect, bounds: Rect)
    requires Fits(r, bounds)
    ensures ClampIp(ClampIp(r, bounds), bounds) == ClampIp(r, bounds)
  {
  }
}

=== FILE: scans.dfy ===
/**
 Linear scans of an entity list against one rectangle, the shape of every
 collision loop in the game. Entities of any kind are seen through `box`,
 which gives an entity's hitbox.
 */
module Scans {
  import opened Geometry

  datatype Option<T> = None | Some(value: T)

  /** Number of entities whose hitbox collides with r. */
  function CountHits<T>(r: Rect, xs: seq<T>, box: T -> Rect): (n: nat)
    ensures n <= |xs|
    ensures n == 0 <==> forall i :: 0 <= i < |xs| ==> !Collides(r, box(xs[i]))
  {
    if |xs| == 0 then 0
    else (if Collides(r, box(xs[0])) then 1 else 0) + CountHits(r, xs[1..], box)
  }

  /** The entities that do not collide with r, in their original order. */
  function Keep<T>(r: Rect, xs: seq<T>, box: T -> Rect): (ys: seq<T>)
    ensures |ys| == |xs| - CountHits(r, xs, box)
    ensures forall i :: 0 <= i < |ys| ==> ys[i] in xs && !Collides(r, box(ys[i]))
    ensures forall i :: 0 <= i < |xs| && !Collides(r, box(xs[i])) ==> xs[i] in ys
  {
    if |xs| == 0 then []
    else if Collides(r, box(xs[0])) then Keep(r, xs[1..], box)
    else [xs[0]] + Keep(r, xs[1..], box)
  }

  /** Index of the first entity that collides with r, if any: the entity a
      `for ... if colliderect: ... break` loop stops at. */
  function FirstHit<T>(r: Rect, xs: seq<T>, box: T -> Rect): (k: Option<nat>)
    ensures k.Some? ==> k.value < |xs| && Collides(r, box(xs[k.value]))
    ensures k.Some? ==> forall j :: 0 <= j < k.value ==> !Collides(r, box(xs[j]))
    ensures k.None? <==> forall j :: 0 <= j < |xs| ==> !Collides(r, box(xs[j]))
  {
    if |xs| == 0 then None
    else if Collides(r, box(xs[0])) then Some(0)
    else match FirstHit(r, xs[1..], box)
      case None => None
      case Some(i) => Some(i + 1)
  }

  /** xs without its element at index i. */
  function RemoveAt<T>(xs: seq<T>, i: nat): (ys: seq<T>)
    requires i < |xs|
    ensures |ys| == |xs| - 1
    ensures forall j :: 0 <= j < |ys| ==> ys[j] in xs
  {
    xs[..i] + xs[i + 1..]
  }

  /** Removing the element at index i keeps every value other than xs[i]. */
  lemma RemoveAtKeepsOthers<T>(xs: seq<T>, i: nat, x: T)
    requires i < |xs| && x in xs && x != xs[i]
    ensures x in RemoveAt(xs, i)
  {
    var k :| 0 <= k < |xs| && xs[k] == x;
    if k < i {
      assert RemoveAt(xs, i)[k] == x;
    } else {
      assert RemoveAt(xs, i)[k - 1] == x;
    }
  }
}

=== FILE: shooting.dfy ===
/**
 Bullet resolution, the last rule of a frame: every live bullet, in the order
 the sprite group holds them, is tested first against the meteors and then
 against the enemies. Each test stops at the first hit. A bullet that has
 just destroyed a meteor still goes on to test the enemies, because the
 meteor loop's `break` leaves only that loop.
 */
module Shooting {
  import opened Geometry
  import opened Scans
  import opened Entities

  const MeteorPoints: int := 1
  const EnemyKillPoints: int := 5

  /** One bullet's damage to an enemy. */
  function Damage(e: Enemy): Enemy {
    e.(health := e.health - 1)
  }

  /** The hitboxes of a list of enemies. */
  function EnemyBoxes(es: seq<Enemy>): set<Rect> {
    set e | e in es :: e.hitbox
  }

  /** Every enemy has at least one health point, as every spawned enemy
      does and every enemy the loop keeps after a hit does. */
  predicate AllAlive(es: seq<Enemy>) {
    forall k :: 0 <= k < |es| ==> es[k].health >= 1
  }

  /** The health of all enemies together. */
  function TotalHealth(es: seq<Enemy>): int
    decreases |es|
  {
    if |es| == 0 then 0 else es[0].health + TotalHealth(es[1..])
  }

  lemma {:induction false} TotalHealthAppend(a: seq<Enemy>, b: seq<Enemy>)
    ensures TotalHealth(a + b) == TotalHealth(a) + TotalHealth(b)
    decreases |a|
  {
    if |a| == 0 {
      assert a + b == b;
    } else {
      assert (a + b)[1..] == a[1..] + b;
      TotalHealthAppend(a[1..], b);
    }
  }

  /** Taking one health point from an enemy with at least one lowers the
      total by one, whether the enemy is then kept (damaged) or removed (at
      zero health). */
  lemma DamageLowersTotal(es: seq<Enemy>, j: int)
    requires AllAlive(es) && 0 <= j < |es|
    ensures es[j].health - 1 <= 0 ==>
              AllAlive(RemoveAt(es, j)) && TotalHealth(RemoveAt(es, j)) == TotalHealth(es) - 1
    ensures es[j].health - 1 > 0 ==>
              AllAlive(es[j := Damage(es[j])]) && TotalHealth(es[j := Damage(es[j])]) == TotalHealth(es) - 1
  {
    var e := Damage(es[j]);
    assert es == es[..j] + ([es[j]] + es[j + 1..]);
    assert es[j := e] == es[..j] + ([e] + es[j + 1..]);
    TotalHealthAppend(es[..j], [es[j]] + es[j + 1..]);
    TotalHealthAppend([es[j]], es[j + 1..]);
    TotalHealthAppend(es[..j], [e] + es[j + 1..]);
    TotalHealthAppend([e], es[j + 1..]);
    TotalHealthAppend(es[..j], es[j + 1..]);
    assert TotalHealth([es[j]]) == es[j].health;
    assert TotalHealth([e]) == e.health;
    forall k | 0 <= k < |RemoveAt(es, j)|
      ensures RemoveAt(es, j)[k].health >= 1
    {
      if k < j {
        assert RemoveAt(es, j)[k] == es[k];
      } else {
        assert RemoveAt(es, j)[k] == es[k + 1];
      }
    }
  }

  /** The meteor loop for one bullet: the first meteor the bullet overlaps is
      destroyed and the loop stops; if none overlaps, nothing changes. */
  function ShootMeteors(b: Bullet, ms: seq<Meteor>): (ms': seq<Meteor>)
    ensures |ms| - 1 <= |ms'| <= |ms|
    ensures |ms'| == |ms| <==> forall i :: 0 <= i < |ms| ==> !Collides(b.rect, ms[i].hitbox)
    ensures |ms'| == |ms| ==> ms' == ms
    ensures |ms'| < |ms| ==>
              exists i :: && 0 <= i < |ms| && Collides(b.rect, ms[i].hitbox)
                          && (forall k :: 0 <= k < i ==> !Collides(b.rect, ms[k].hitbox))
                          && ms' == RemoveAt(ms, i)
    ensures forall i :: 0 <= i < |ms'| ==> ms'[i] in ms
  {
    match FirstHit(b.rect, ms, MeteorBox)
    case None => ms
    case Some(i) => RemoveAt(ms, i)
  }

  /** What the enemy loop does to one bullet's target. */
  datatype EnemyShot = EnemyShot(enemies: seq<Enemy>, hit: bool, killed: bool)

  /** Enemy j is the first one the bullet overlaps. */
  predicate FirstEnemyHit(b: Bullet, es: seq<Enemy>, j: int) {
    && 0 <= j < |es| && Collides(b.rect, es[j].hitbox)
    && forall k :: 0 <= k < j ==> !Collides(b.rect, es[k].hitbox)
  }

  /** The enemy loop for one bullet: the first enemy the bullet overlaps loses
      one health point and is removed if that leaves it with none; the loop
      stops there. If none overlaps, nothing changes. */
  function ShootEnemies(b: Bullet, es: seq<Enemy>): (r: EnemyShot)
    ensures r.hit <==> exists j :: 0 <= j < |es| && Collides(b.rect, es[j].hitbox)
    ensures !r.hit ==> r.enemies == es && !r.killed
    ensures r.hit ==>
              exists j :: && FirstEnemyHit(b, es, j)
                          && r.killed == (es[j].health - 1 <= 0)
                          && r.enemies == if r.killed then RemoveAt(es, j) else es[j := Damage(es[j])]
    ensures |r.enemies| == if r.killed then |es| - 1 else |es|
    ensures EnemyBoxes(r.enemies) <= EnemyBoxes(es)
    ensures AllAlive(es) ==>
              AllAlive(r.enemies) && TotalHealth(r.enemies) == TotalHealth(es) - (if r.hit then 1 else 0)
  {
    match FirstHit(b.rect, es, EnemyBox)
    case None => EnemyShot(es, false, false)
    case Some(j) =>
      assert FirstEnemyHit(b, es, j);
      if AllAlive(es) then DamageLowersTotal(es, j); ShootAt(es, j)
      else ShootAt(es, j)
  }

  /** The enemy at index j loses one health point and is removed if that
      leaves it with none. */
  function ShootAt(es: seq<Enemy>, j: int): (r: EnemyShot)
    requires 0 <= j < |es|
    ensures r.hit && r.killed == (es[j].health - 1 <= 0)
    ensures r.enemies == if r.killed then RemoveAt(es, j) else es[j := Damage(es[j])]
    ensures EnemyBoxes(r.enemies) <= EnemyBoxes(es)
  {
      var e := Damage(es[j]);
      if e.health <= 0 then
        EnemyShot(RemoveAt(es, j), true, true)
      else
        var es' := es[j := e];
        assert EnemyBoxes(es') <= EnemyBoxes(es) by {
          forall r | r in EnemyBoxes(es')
            ensures r in EnemyBoxes(es)
          {
            var f :| f in es' && f.hitbox == r;
            var k :| 0 <= k < |es'| && es'[k] == f;
            if k == j {
              assert r == es[j].hitbox;
            } else {
              assert f == es[k];
            }
          }
        }
        EnemyShot(es', true, false)
  }

  /** What one bullet does: the meteors and enemies left, the points it
      earned, and whether a hit killed it. */
  datatype Shot = Shot(meteors: seq<Meteor>, enemies: seq<Enemy>, gained: int, spent: bool)

  /** One bullet: the meteor loop runs, and then the enemy loop runs whether
      or not a meteor was hit. A meteor is worth one point and a destroyed
      enemy five. */
  function ResolveBullet(b: Bullet, ms: seq<Meteor>, es: seq<Enemy>): (s: Shot)
    ensures s.meteors == ShootMeteors(b, ms)
    ensures s.enemies == ShootEnemies(b, es).enemies
    ensures s.gained == (if |s.meteors| < |ms| then MeteorPoints else 0)
                        + (if ShootEnemies(b, es).killed then EnemyKillPoints else 0)
    ensures s.gained == MeteorPoints * (|ms| - |s.meteors|) + EnemyKillPoints * (|es| - |s.enemies|)
    ensures 0 <= s.gained <= MeteorPoints + EnemyKillPoints
    ensures s.spent <==> || (exists i :: 0 <= i < |ms| && Collides(b.rect, ms[i].hitbox))
                         || (exists j :: 0 <= j < |es| && Collides(b.rect, es[j].hitbox))
    ensures !s.spent ==> s.meteors == ms && s.enemies == es
    ensures ShootEnemies(b, es).hit ==> s.spent
  {
    var ms' := ShootMeteors(b, ms);
    var hitMeteor := |ms'| < |ms|;
    var shot := ShootEnemies(b, es);
    var gained := (if hitMeteor then MeteorPoints else 0) + (if shot.killed then EnemyKillPoints else 0);
    Shot(ms', shot.enemies, gained, hitMeteor || shot.hit)
  }

  /** The meteor loop's `break` leaves only that loop: a bullet that destroys
      a meteor still hits the first enemy it overlaps, which loses one health
      point and is removed if that leaves it with none, and the bullet earns
      both rewards. */
  lemma MeteorKillStillShootsEnemy(b: Bullet, ms: seq<Meteor>, es: seq<Enemy>, i: int, j: int)
    requires 0 <= i < |ms| && Collides(b.rect, ms[i].hitbox)
    requires FirstEnemyHit(b, es, j)
    ensures var s := ResolveBullet(b, ms, es);
            && s.spent
            && |s.meteors| == |ms| - 1
            && s.enemies == (if es[j].health - 1 <= 0 then RemoveAt(es, j) else es[j := Damage(es[j])])
            && s.gained == MeteorPoints + (if es[j].health - 1 <= 0 then EnemyKillPoints else 0)
  {
    var shot := ShootEnemies(b, es);
    var k :| && FirstEnemyHit(b, es, k)
             && shot.killed == (es[k].health - 1 <= 0)
             && shot.enemies == if shot.killed then RemoveAt(es, k) else es[k := Damage(es[k])];
    assert k == j;
  }

  /** Bullets, meteors, enemies and points after the bullet loop. */
  datatype Volley = Volley(bullets: seq<Bullet>, meteors: seq<Meteor>, enemies: seq<Enemy>, points: int)

  /** The bullet loop: each bullet in turn sees the lists its predecessors
      left; a bullet that hit anything leaves the group. Every point it adds
      is one per meteor destroyed or five per enemy destroyed, so the score
      never drops; each bullet destroys at most one meteor and one enemy; the
      loop never moves a meteor or an enemy; and no bullet that survives it
      overlaps a meteor or an enemy that survives it. */
  function ResolveBullets(bs: seq<Bullet>, ms: seq<Meteor>, es: seq<Enemy>, points: int): (v: Volley)
    ensures v.points >= points
    ensures v.points - points == MeteorPoints * (|ms| - |v.meteors|) + EnemyKillPoints * (|es| - |v.enemies|)
    ensures 0 <= |ms| - |v.meteors| <= |bs| - |v.bullets|
    ensures 0 <= |es| - |v.enemies| <= |bs| - |v.bullets|
    ensures forall i :: 0 <= i < |v.bullets| ==> v.bullets[i] in bs
    ensures forall i :: 0 <= i < |v.meteors| ==> v.meteors[i] in ms
    ensures EnemyBoxes(v.enemies) <= EnemyBoxes(es)
    ensures NoOverlap(v)
    ensures forall i :: 0 <= i < |bs| && Clear(bs[i], ms, es) ==> bs[i] in v.bullets
    ensures AllAlive(es) ==>
              && AllAlive(v.enemies)
              && 0 <= TotalHealth(es) - TotalHealth(v.enemies) <= |bs| - |v.bullets|
    ensures |v.meteors| == |ms| ==> forall i, j :: 0 <= i < |bs| && 0 <= j < |ms| ==> !Collides(bs[i].rect, ms[j].hitbox)
    ensures AllAlive(es) && TotalHealth(v.enemies) == TotalHealth(es) ==>
              forall i, j :: 0 <= i < |bs| && 0 <= j < |es| ==> !Collides(bs[i].rect, es[j].hitbox)
    ensures forall m :: m in ms && (forall b :: b in bs ==> !Collides(b.rect, m.hitbox)) ==> m in v.meteors
    ensures forall e :: e in es && (forall b :: b in bs ==> !Collides(b.rect, e.hitbox)) ==> e in v.enemies
    decreases |bs|
  {
    if |bs| == 0 then Volley([], ms, es, points)
    else
      var s := ResolveBullet(bs[0], ms, es);
      var rest := ResolveBullets(bs[1..], s.meteors, s.enemies, points + s.gained);
      var v := if s.spent then rest else rest.(bullets := [bs[0]] + rest.bullets);
      VolleyStep(bs, ms, es, points, s, rest, v);
      v
  }

  /** The promises of ResolveBullets, gathered in one place for its
      induction step. */
  predicate Promised(bs: seq<Bullet>, ms: seq<Meteor>, es: seq<Enemy>, points: int, v: Volley) {
    && v.points >= points
    && v.points - points == MeteorPoints * (|ms| - |v.meteors|) + EnemyKillPoints * (|es| - |v.enemies|)
    && 0 <= |ms| - |v.meteors| <= |bs| - |v.bullets|
    && 0 <= |es| - |v.enemies| <= |bs| - |v.bullets|
    && (forall i :: 0 <= i < |v.bullets| ==> v.bullets[i] in bs)
    && (forall i :: 0 <= i < |v.meteors| ==> v.meteors[i] in ms)
    && EnemyBoxes(v.enemies) <= EnemyBoxes(es)
    && NoOverlap(v)
    && (forall i :: 0 <= i < |bs| && Clear(bs[i], ms, es) ==> bs[i] in v.bullets)
    && (AllAlive(es) ==>
          && AllAlive(v.enemies)
          && 0 <= TotalHealth(es) - TotalHealth(v.enemies) <= |bs| - |v.bullets|)
    && (|v.meteors| == |ms| ==> forall i, j :: 0 <= i < |bs| && 0 <= j < |ms| ==> !Collides(bs[i].rect, ms[j].hitbox))
    && (AllAlive(es) && TotalHealth(v.enemies) == TotalHealth(es) ==>
          forall i, j :: 0 <= i < |bs| && 0 <= j < |es| ==> !Collides(bs[i].rect, es[j].hitbox))
    && (forall m :: m in ms && (forall b :: b in bs ==> !Collides(b.rect, m.hitbox)) ==> m in v.meteors)
    && (forall e :: e in es && (forall b :: b in bs ==> !Collides(b.rect, e.hitbox)) ==> e in v.enemies)
  }

  /** The induction step of ResolveBullets: if its promises hold of the later
      bullets run on what the first bullet left, they hold of the whole
      loop. */
  lemma VolleyStep(bs: seq<Bullet>, ms: seq<Meteor>, es: seq<Enemy>, points: int, s: Shot, rest: Volley, v: Volley)
    requires |bs| > 0 && s == ResolveBullet(bs[0], ms, es)
    requires Promised(bs[1..], s.meteors, s.enemies, points + s.gained, rest)
    requires v == if s.spent then rest else rest.(bullets := [bs[0]] + rest.bullets)
    ensures Promised(bs, ms, es, points, v)
  {
    ScoreStep(bs, ms, es, points, s, rest, v);
    KeptStep(bs, ms, es, s, rest, v);
    HealthStep(bs, es, s.enemies, ShootEnemies(bs[0], es).hit, s.spent, rest, v);
    MeteorMissStep(bs, ms, es, s, rest.meteors);
    EnemyMissStep(bs, ms, es, s, rest.enemies);
    SurvivorsStep(bs, ms, es, s.meteors, s.enemies, rest.bullets, v.bullets);
    UntouchedStep(bs, ms, es, s, rest.meteors, rest.enemies);
    if !s.spent {
      AddClearBullet(bs[0], rest, ms, es);
    }
  }

  /** A meteor or enemy the bullet does not overlap is still there, as it
      was, after the bullet: the bullet removes or damages only the first
      one it overlaps. */
  lemma UntouchedByShot(b: Bullet, ms: seq<Meteor>, es: seq<Enemy>, s: Shot)
    requires s == ResolveBullet(b, ms, es)
    ensures forall m :: m in ms && !Collides(b.rect, m.hitbox) ==> m in s.meteors
    ensures forall e :: e in es && !Collides(b.rect, e.hitbox) ==> e in s.enemies
  {
    forall m | m in ms && !Collides(b.rect, m.hitbox)
      ensures m in s.meteors
    {
      match FirstHit(b.rect, ms, MeteorBox)
      case None =>
      case Some(i) => RemoveAtKeepsOthers(ms, i, m);
    }
    forall e | e in es && !Collides(b.rect, e.hitbox)
      ensures e in s.enemies
    {
      match FirstHit(b.rect, es, EnemyBox)
      case None =>
      case Some(j) =>
        RemoveAtKeepsOthers(es, j, e);
        var k :| 0 <= k < |es| && es[k] == e;
        assert es[j := Damage(es[j])][k] == e;
    }
  }

  /** The induction step of the untouched clauses of ResolveBullets: what no
      bullet overlaps survives the first bullet, and then the later ones. */
  lemma {:induction false} UntouchedStep(bs: seq<Bullet>, ms: seq<Meteor>, es: seq<Enemy>, s: Shot,
                                         ms': seq<Meteor>, es': seq<Enemy>)
    requires |bs| > 0 && s == ResolveBullet(bs[0], ms, es)
    requires forall m :: m in s.meteors && (forall b :: b in bs[1..] ==> !Collides(b.rect, m.hitbox)) ==> m in ms'
    requires forall e :: e in s.enemies && (forall b :: b in bs[1..] ==> !Collides(b.rect, e.hitbox)) ==> e in es'
    ensures forall m :: m in ms && (forall b :: b in bs ==> !Collides(b.rect, m.hitbox)) ==> m in ms'
    ensures forall e :: e in es && (forall b :: b in bs ==> !Collides(b.rect, e.hitbox)) ==> e in es'
  {
    UntouchedByShot(bs[0], ms, es, s);
    assert forall b :: b in bs[1..] ==> b in bs;
  }

  /** The induction step of the score and count clauses of ResolveBullets:
      a spent bullet destroys at most one meteor and one enemy, and one that
      is not spent destroys nothing. */
  lemma ScoreStep(bs: seq<Bullet>, ms: seq<Meteor>, es: seq<Enemy>, points: int, s: Shot, rest: Volley, v: Volley)
    requires |bs| > 0 && s == ResolveBullet(bs[0], ms, es)
    requires rest.points - (points + s.gained)
             == MeteorPoints * (|s.meteors| - |rest.meteors|) + EnemyKillPoints * (|s.enemies| - |rest.enemies|)
    requires 0 <= |s.meteors| - |rest.meteors| <= |bs| - 1 - |rest.bullets|
    requires 0 <= |s.enemies| - |rest.enemies| <= |bs| - 1 - |rest.bullets|
    requires v == if s.spent then rest else rest.(bullets := [bs[0]] + rest.bullets)
    ensures v.points >= points
    ensures v.points - points == MeteorPoints * (|ms| - |v.meteors|) + EnemyKillPoints * (|es| - |v.enemies|)
    ensures 0 <= |ms| - |v.meteors| <= |bs| - |v.bullets|
    ensures 0 <= |es| - |v.enemies| <= |bs| - |v.bullets|
  {
  }

  /** The induction step of the clauses that say where the bullets, meteors
      and enemies left come from. */
  lemma KeptStep(bs: seq<Bullet>, ms: seq<Meteor>, es: seq<Enemy>, s: Shot, rest: Volley, v: Volley)
    requires |bs| > 0
    requires forall j :: 0 <= j < |s.meteors| ==> s.meteors[j] in ms
    requires EnemyBoxes(s.enemies) <= EnemyBoxes(es)
    requires forall i :: 0 <= i < |rest.bullets| ==> rest.bullets[i] in bs[1..]
    requires forall i :: 0 <= i < |rest.meteors| ==> rest.meteors[i] in s.meteors
    requires EnemyBoxes(rest.enemies) <= EnemyBoxes(s.enemies)
    requires v == if s.spent then rest else rest.(bullets := [bs[0]] + rest.bullets)
    ensures forall i :: 0 <= i < |v.bullets| ==> v.bullets[i] in bs
    ensures forall i :: 0 <= i < |v.meteors| ==> v.meteors[i] in ms
    ensures EnemyBoxes(v.enemies) <= EnemyBoxes(es)
  {
    forall i | 0 <= i < |v.bullets|
      ensures v.bullets[i] in bs
    {
      if s.spent || i > 0 {
        var k := if s.spent then i else i - 1;
        assert v.bullets[i] == rest.bullets[k];
        assert rest.bullets[k] in bs[1..];
      }
    }
    forall i | 0 <= i < |v.meteors|
      ensures v.meteors[i] in ms
    {
      assert rest.meteors[i] in s.meteors;
    }
  }

  /** The induction step of the health clauses, over the lists alone: with
      every enemy alive, the first bullet lowers the enemies' total health by
      one if it hits an enemy (and is then spent) and leaves it alone
      otherwise. */
  lemma HealthStep(bs: seq<Bullet>, es: seq<Enemy>, es': seq<Enemy>, hit: bool, spent: bool, rest: Volley, v: Volley)
    requires |bs| > 0
    requires AllAlive(es) ==> AllAlive(es') && TotalHealth(es') == TotalHealth(es) - (if hit then 1 else 0)
    requires hit ==> spent
    requires AllAlive(es') ==>
               && AllAlive(rest.enemies)
               && 0 <= TotalHealth(es') - TotalHealth(rest.enemies) <= |bs| - 1 - |rest.bullets|
    requires v.enemies == rest.enemies
    requires |v.bullets| == |rest.bullets| + (if spent then 0 else 1)
    ensures AllAlive(es) ==>
              && AllAlive(v.enemies)
              && 0 <= TotalHealth(es) - TotalHealth(v.enemies) <= |bs| - |v.bullets|
  {
  }

  /** The induction step of the meteor-miss clause of ResolveBullets: if no
      meteor is destroyed, the first bullet overlapped none, left the meteors
      as they were, and the later bullets overlapped none of them either. */
  lemma {:induction false} MeteorMissStep(bs: seq<Bullet>, ms: seq<Meteor>, es: seq<Enemy>, s: Shot, left: seq<Meteor>)
    requires |bs| > 0 && s == ResolveBullet(bs[0], ms, es)
    requires |left| <= |s.meteors|
    requires |left| == |s.meteors| ==>
               forall i, j :: 0 <= i < |bs[1..]| && 0 <= j < |s.meteors| ==> !Collides(bs[1..][i].rect, s.meteors[j].hitbox)
    ensures |left| == |ms| ==> forall i, j :: 0 <= i < |bs| && 0 <= j < |ms| ==> !Collides(bs[i].rect, ms[j].hitbox)
  {
    if |left| == |ms| {
      var ms' := ShootMeteors(bs[0], ms);
      assert |ms'| == |ms| && ms' == ms;
      assert forall j :: 0 <= j < |ms| ==> !Collides(bs[0].rect, ms[j].hitbox);
      forall i, j | 0 <= i < |bs| && 0 <= j < |ms|
        ensures !Collides(bs[i].rect, ms[j].hitbox)
      {
        if i > 0 {
          assert bs[i] == bs[1..][i - 1];
        }
      }
    }
  }

  /** The induction step of the enemy-miss clause of ResolveBullets: if the
      enemies, all alive, lose no health, the first bullet overlapped none,
      left them as they were, and the later bullets overlapped none of them
      either. */
  lemma {:induction false} EnemyMissStep(bs: seq<Bullet>, ms: seq<Meteor>, es: seq<Enemy>, s: Shot, left: seq<Enemy>)
    requires |bs| > 0 && s == ResolveBullet(bs[0], ms, es)
    requires AllAlive(s.enemies) ==> TotalHealth(left) <= TotalHealth(s.enemies)
    requires AllAlive(s.enemies) && TotalHealth(left) == TotalHealth(s.enemies) ==>
               forall i, j :: 0 <= i < |bs[1..]| && 0 <= j < |s.enemies| ==> !Collides(bs[1..][i].rect, s.enemies[j].hitbox)
    ensures AllAlive(es) && TotalHealth(left) == TotalHealth(es) ==>
              forall i, j :: 0 <= i < |bs| && 0 <= j < |es| ==> !Collides(bs[i].rect, es[j].hitbox)
  {
    if AllAlive(es) && TotalHealth(left) == TotalHealth(es) {
      assert !ShootEnemies(bs[0], es).hit;
      assert s.enemies == es;
      forall i, j | 0 <= i < |bs| && 0 <= j < |es|
        ensures !Collides(bs[i].rect, es[j].hitbox)
      {
        if i > 0 {
          assert bs[i] == bs[1..][i - 1];
        }
      }
    }
  }

  /** If any bullet overlaps any meteor, the loop destroys a meteor: either
      an earlier bullet already destroyed one, or that bullet destroys the
      first meteor it overlaps. */
  lemma MeteorHitDestroysMeteor(bs: seq<Bullet>, ms: seq<Meteor>, es: seq<Enemy>, points: int, i: int, j: int)
    requires 0 <= i < |bs| && 0 <= j < |ms| && Collides(bs[i].rect, ms[j].hitbox)
    ensures |ResolveBullets(bs, ms, es, points).meteors| < |ms|
  {
  }

  /** If any bullet overlaps any enemy, the loop takes at least one health
      point from the enemies (when all of them are alive): either an earlier
      bullet already did, or that bullet hits the first enemy it overlaps. */
  lemma EnemyHitWounds(bs: seq<Bullet>, ms: seq<Meteor>, es: seq<Enemy>, points: int, i: int, j: int)
    requires AllAlive(es)
    requires 0 <= i < |bs| && 0 <= j < |es| && Collides(bs[i].rect, es[j].hitbox)
    ensures TotalHealth(ResolveBullets(bs, ms, es, points).enemies) < TotalHealth(es)
  {
  }

  /** If the first enemy the first bullet overlaps has one health point left
      (or fewer), that enemy is destroyed. */
  lemma FirstBulletKillsEnemy(bs: seq<Bullet>, ms: seq<Meteor>, es: seq<Enemy>, points: int, j: int)
    requires |bs| > 0 && FirstEnemyHit(bs[0], es, j) && es[j].health <= 1
    ensures |ResolveBullets(bs, ms, es, points).enemies| < |es|
  {
    var shot := ShootEnemies(bs[0], es);
    var k :| FirstEnemyHit(bs[0], es, k) && shot.killed == (es[k].health - 1 <= 0);
    assert k == j;
  }

  /** No bullet left in the volley overlaps a meteor or an enemy left in it. */
  predicate NoOverlap(v: Volley) {
    && (forall i, j :: 0 <= i < |v.bullets| && 0 <= j < |v.meteors| ==>
          !Collides(v.bullets[i].rect, v.meteors[j].hitbox))
    && (forall i, j :: 0 <= i < |v.bullets| && 0 <= j < |v.enemies| ==>
          !Collides(v.bullets[i].rect, v.enemies[j].hitbox))
  }

  /** A bullet that overlaps nothing in ms and es can join a clear volley
      whose meteors come from ms and whose enemies sit where enemies of es
      sat. */
  lemma AddClearBullet(b: Bullet, v: Volley, ms: seq<Meteor>, es: seq<Enemy>)
    requires NoOverlap(v)
    requires forall j :: 0 <= j < |v.meteors| ==> v.meteors[j] in ms
    requires EnemyBoxes(v.enemies) <= EnemyBoxes(es)
    requires forall j :: 0 <= j < |ms| ==> !Collides(b.rect, ms[j].hitbox)
    requires forall j :: 0 <= j < |es| ==> !Collides(b.rect, es[j].hitbox)
    ensures NoOverlap(v.(bullets := [b] + v.bullets))
  {
    var w := v.(bullets := [b] + v.bullets);
    forall i, j | 0 <= i < |w.bullets| && 0 <= j < |w.meteors|
      ensures !Collides(w.bullets[i].rect, w.meteors[j].hitbox)
    {
      if i == 0 {
        assert w.meteors[j] in ms;
      } else {
        assert w.bullets[i] == v.bullets[i - 1];
      }
    }
    forall i, j | 0 <= i < |w.bullets| && 0 <= j < |w.enemies|
      ensures !Collides(w.bullets[i].rect, w.enemies[j].hitbox)
    {
      if i == 0 {
        assert w.enemies[j].hitbox in EnemyBoxes(v.enemies);
        var f :| f in es && f.hitbox == w.enemies[j].hitbox;
      } else {
        assert w.bullets[i] == v.bullets[i - 1];
      }
    }
  }

  /** Bullet b overlaps no meteor of ms and no enemy of es. */
  predicate Clear(b: Bullet, ms: seq<Meteor>, es: seq<Enemy>) {
    && (forall j :: 0 <= j < |ms| ==> !Collides(b.rect, ms[j].hitbox))
    && (forall j :: 0 <= j < |es| ==> !Collides(b.rect, es[j].hitbox))
  }

  /** A bullet that overlaps nothing stays clear of the smaller lists that
      earlier bullets leave behind. */
  lemma ClearOfSurvivors(b: Bullet, ms: seq<Meteor>, es: seq<Enemy>, ms': seq<Meteor>, es': seq<Enemy>)
    requires Clear(b, ms, es)
    requires forall j :: 0 <= j < |ms'| ==> ms'[j] in ms
    requires EnemyBoxes(es') <= EnemyBoxes(es)
    ensures Clear(b, ms', es')
  {
    forall j | 0 <= j < |es'|
      ensures !Collides(b.rect, es'[j].hitbox)
    {
      assert es'[j].hitbox in EnemyBoxes(es');
      var f :| f in es && f.hitbox == es'[j].hitbox;
    }
  }

  /** The induction step of the survivor clause of ResolveBullets, over the lists alone: a
      bullet clear of ms and es is clear of the smaller lists the first
      bullet leaves, so it survives the rest of the loop. */
  lemma SurvivorsStep(bs: seq<Bullet>, ms: seq<Meteor>, es: seq<Enemy>, ms': seq<Meteor>, es': seq<Enemy>,
                      rest: seq<Bullet>, all: seq<Bullet>)
    requires |bs| > 0
    requires forall i :: 0 <= i < |bs[1..]| && Clear(bs[1..][i], ms', es') ==> bs[1..][i] in rest
    requires forall j :: 0 <= j < |ms'| ==> ms'[j] in ms
    requires EnemyBoxes(es') <= EnemyBoxes(es)
    requires forall x :: x in rest ==> x in all
    requires Clear(bs[0], ms, es) ==> bs[0] in all
    ensures forall i :: 0 <= i < |bs| && Clear(bs[i], ms, es) ==> bs[i] in all
  {
    forall i | 0 <= i < |bs| && Clear(bs[i], ms, es)
      ensures bs[i] in all
    {
      if i > 0 {
        ClearOfSurvivors(bs[i], ms, es, ms', es');
        assert bs[i] == bs[1..][i - 1];
      }
    }
  }

  /** When no bullet overlaps anything, the loop changes nothing: every
      bullet stays, in order, and the lists and the score are unchanged. */
  lemma {:induction false} QuietVolley(bs: seq<Bullet>, ms: seq<Meteor>, es: seq<Enemy>, points: int)
    requires forall i :: 0 <= i < |bs| ==> Clear(bs[i], ms, es)
    ensures ResolveBullets(bs, ms, es, points) == Volley(bs, ms, es, points)
    decreases |bs|
  {
    if |bs| > 0 {
      ClearTail(bs, ms, es);
      QuietVolley(bs[1..], ms, es, points);
      QuietHead(bs, ms, es, points);
      QuietCons(bs, ms, es, points, ResolveBullets(bs[1..], ms, es, points), ResolveBullets(bs, ms, es, points));
    }
  }

  /** Putting the first bullet back in front of the later ones gives all of
      them. */
  lemma QuietCons(bs: seq<Bullet>, ms: seq<Meteor>, es: seq<Enemy>, points: int, rest: Volley, v: Volley)
    requires |bs| > 0 && rest == Volley(bs[1..], ms, es, points)
    requires v == rest.(bullets := [bs[0]] + rest.bullets)
    ensures v == Volley(bs, ms, es, points)
  {
    assert [bs[0]] + bs[1..] == bs;
  }

  /** Bullets clear of the lists stay clear after the first is dropped. */
  lemma ClearTail(bs: seq<Bullet>, ms: seq<Meteor>, es: seq<Enemy>)
    requires |bs| > 0
    requires forall i :: 0 <= i < |bs| ==> Clear(bs[i], ms, es)
    ensures forall i :: 0 <= i < |bs[1..]| ==> Clear(bs[1..][i], ms, es)
  {
    forall i | 0 <= i < |bs[1..]|
      ensures Clear(bs[1..][i], ms, es)
    {
      assert bs[1..][i] == bs[i + 1];
    }
  }

  /** The loop keeps a first bullet that overlaps nothing and goes on with
      the same lists and score. */
  lemma QuietHead(bs: seq<Bullet>, ms: seq<Meteor>, es: seq<Enemy>, points: int)
    requires |bs| > 0 && Clear(bs[0], ms, es)
    ensures var rest := ResolveBullets(bs[1..], ms, es, points);
            ResolveBullets(bs, ms, es, points) == rest.(bullets := [bs[0]] + rest.bullets)
  {
    QuietBullet(bs[0], ms, es);
  }

  /** A bullet that overlaps nothing is not spent and changes nothing. */
  lemma QuietBullet(b: Bullet, ms: seq<Meteor>, es: seq<Enemy>)
    requires Clear(b, ms, es)
    ensures ResolveBullet(b, ms, es) == Shot(ms, es, 0, false)
  {
  }
}
